=== FILE: README.md ===
# Kanban board: the board store and drag-and-drop reordering

This project models the in-memory state of the Kanban board component of a
browser Kanban client, and proves properties of it. The component holds
five pieces of state:

- the current board;
- the ordered list of columns;
- one flat, ordered list of tasks, where each task names its column by `columnId`;
- two "active" slots that remember the column or task being dragged.

Every handler of the component is one transformation of that state:

- the three drag handlers (start, over, end);
- the updates that follow a successful create, update or delete call to the REST API;
- the initial load, which seeds three columns on an empty board.

Layout:

- `Outcomes.dfy` — `Option`, and `Reply`, the outcome of one awaited API call (`Ok(value)` or `Failed`).
- `Sequences.dfy` — the list primitives the handlers are built from:
  - `Array.prototype.map`, and the "replace every element that matches" map of the update handlers;
  - `arrayMove` of the sortable drag-and-drop library, defined as "take the element out at `from`, insert it at `to` in the shortened list";
  - `Array.prototype.filter`;
  - `Array.prototype.findIndex` (first index, or -1).
- `Text.dfy` — decimal rendering of a count, as the template literals in new titles render it.
- `BoardTypes.dfy` — the `Board`, `Column` and `Task` records, the bodies of create requests, id lists, one column's tasks, and three predicates on the state:
  - every task references an existing column. Every handler except the initial load preserves it, given replies whose ids are on the board (a renamed column or edited task keeps its id, a created or edited task sits in a column of the board); a drag-over onto a column also needs that column to be on the board. The initial load replaces both lists with what the server sends, so it neither keeps nor establishes this predicate;
  - column positions equal indices. Creating a column preserves it when the reply echoes the requested position; a column drop breaks it, because no handler rewrites `position` (`MoveColumnSwapsPair`), and so does deleting any column but the last (`RemoveColumn` keeps the others' stored positions). The initial load installs whatever positions the server sends;
  - task positions equal indices within their column. Creating a task preserves it when the reply echoes the requested column and position; drags and deletes can break it, for the same reason.
- `BoardUpdates.dfy` — the functions each handler hands to a state setter, the request bodies, and the lemmas about them.
- `Kanban.dfy` — class `KanbanBoard`: the five state fields, and one method per handler. Each method takes the API's replies as parameters and changes only what its `modifies` clause names.

Four points about the code that a reader might expect to be otherwise:

- **No persistence on drop.** The drag handlers call no API. Only the initial load and the create, update and delete handlers do, so a reordering is lost on reload.
- **Task dropped on a column's empty area.** The target's id is a column id, so `tasks.findIndex` at `KanbanBoard.tsx:199` returns -1. Line 201 then reads `tasks[-1].columnId`, which throws a `TypeError` before `arrayMove` is reached. The task's move to the other column comes from drag-over (lines 239-246), which sets only its `columnId` and keeps the list order (`arrayMove(tasks, i, i)`). The model returns this failure as `thrown` from `OnDragEnd` and leaves columns and tasks unchanged (`ColumnAreaDropThrows`).
- **Drop across columns lands at `overIndex - 1`.** The task goes directly before its target only when it came earlier in the flat list. When it came later, it lands before `tasks[overIndex - 1]`, which then sits between it and the target. With tasks `[Y(column 2), O(column 2), A(column 1)]`, dropping A on O gives `[A, Y, O]`, so A ends above Y, not directly above O (`CrossColumnDropLanding`).
- **Missing ids in a column move.** A column move does not check its lookups. It passes `findIndex`'s -1 straight to `arrayMove`. The model requires both ids to be present (see "Left out").

## Model

| member | source | states |
|---|---|---|
| `Sequences.ArrayMove` | Frontend/src/component/KanbanBoard.tsx:191 | result is a permutation of the input; the moved element sits at `to`; removing it again gives the input with the element removed at `from`, so all others keep their relative order |
| `Sequences.ArrayMoveUnique` | Frontend/src/component/KanbanBoard.tsx:191 | any list with those three properties is exactly `arrayMove`'s result, so the contract fully specifies the move |
| `Sequences.ArrayMoveIdentity` | Frontend/src/component/KanbanBoard.tsx:245 | moving an element onto its own index returns the list unchanged |
| `Sequences.ArrayMoveInverse` | Frontend/src/component/KanbanBoard.tsx:191 | moving from `to` back to `from` restores the original list |
| `Sequences.ArrayMoveAt` | Frontend/src/component/KanbanBoard.tsx:191 | where each element lands: elements between the two indices shift one place toward `from`; all others stay put |
| `Sequences.Filter` | Frontend/src/component/KanbanBoard.tsx:118-119 | every kept element passes the test; each passing value keeps its multiplicity; every failing value is gone |
| `Sequences.FilterAppend` | Frontend/src/component/KanbanBoard.tsx:118-119 | filtering distributes over concatenation, so survivors keep their order |
| `Sequences.FilterKeepsAll` | Frontend/src/component/KanbanBoard.tsx:159 | filtering a list whose elements all pass returns it unchanged (used by `RemoveTaskAbsent`) |
| `Sequences.FilterFilter` | Frontend/src/component/KanbanBoard.tsx:119 | filtering by a weaker test and then by a stronger one equals filtering by the stronger one alone |
| `Sequences.FilterUpdateCount` | Frontend/src/component/KanbanBoard.tsx:244 | replacing one element changes the number of passing elements by exactly what the old and new element contribute |
| `Sequences.MapSeq` | Frontend/src/component/KanbanBoard.tsx:109 | `map` keeps the length and applies the function at every index; it underlies the replacing maps of lines 109 and 150 (through `ReplaceWhere`) and the id lists searched by the `findIndex` calls of lines 188-189, 198-199 and 227-228 |
| `Sequences.ReplaceWhere` | Frontend/src/component/KanbanBoard.tsx:109 | every element that matches is replaced by the new value; every other element stays at its index |
| `Sequences.ReplaceWhereTwice` | Frontend/src/component/KanbanBoard.tsx:150 | when the new value itself matches, replacing a second time changes nothing |
| `Sequences.IndexOf` | Frontend/src/component/KanbanBoard.tsx:188-189 | `findIndex` returns -1 exactly when the value is absent; otherwise the first index holding it |
| `Text.NatToString` | Frontend/src/component/KanbanBoard.tsx:94 | renders a non-empty string of decimal digits with no leading zero |
| `Text.NatToStringRoundTrip` | Frontend/src/component/KanbanBoard.tsx:133 | reading the rendered digits back gives the number |
| `BoardUpdates.TaskIdsMove` | Frontend/src/component/KanbanBoard.tsx:232 | moving a task moves its id the same way in the id list, so the multiset of ids is kept |
| `BoardUpdates.MoveColumn` | Frontend/src/component/KanbanBoard.tsx:187-191 | the column drop permutes the columns; the dragged column lands at the target's former index; the others keep their relative order |
| `BoardUpdates.MoveColumnSwapsPair` | Frontend/src/component/KanbanBoard.tsx:185-192 | columns `[A(pos 0), B(pos 1)]`: dropping A on B gives `[B, A]`, and the stored positions no longer match the order |
| `BoardUpdates.MoveColumnKeepsReferences` | Frontend/src/component/KanbanBoard.tsx:187-191 | reordering columns keeps every task pointing at an existing column |
| `BoardUpdates.MoveTaskOverTask` | Frontend/src/component/KanbanBoard.tsx:225-237 | task over task: the dragged task takes the over task's `columnId` and lands at its former index; every other task is unchanged and keeps its order; the multiset of ids is kept |
| `BoardUpdates.CanDropTaskOnTask` | Frontend/src/component/KanbanBoard.tsx:198-203 | a task drop reads only indices that exist: both `findIndex` lookups succeed, and across columns `overIndex - 1` is not -1 |
| `BoardUpdates.DropTaskOnTask` | Frontend/src/component/KanbanBoard.tsx:195-208 | task drop: target index is `overIndex - 1` across columns and `overIndex` within one; the dragged task ends with the over task's `columnId`; other tasks unchanged and in order; ids permuted |
| `BoardUpdates.CrossColumnDropLanding` | Frontend/src/component/KanbanBoard.tsx:201-203 | a drop across columns puts the task directly before its target when it came earlier in the list; when it came later, the task that preceded the target ends between the two |
| `BoardUpdates.MoveTaskOverColumn` | Frontend/src/component/KanbanBoard.tsx:239-247 | task over a column area: only the dragged task changes, and only its `columnId`; the list order is untouched |
| `BoardUpdates.MoveTaskOverColumnCounts` | Frontend/src/component/KanbanBoard.tsx:241-246 | the target column gains exactly one task, the source column loses exactly one, every other column keeps its count |
| `BoardUpdates.MoveTaskOverTaskKeepsReferences` | Frontend/src/component/KanbanBoard.tsx:226-236 | task over task keeps every task pointing at an existing column |
| `BoardUpdates.DropTaskOnTaskKeepsReferences` | Frontend/src/component/KanbanBoard.tsx:197-207 | the task drop keeps every task pointing at an existing column |
| `BoardUpdates.MoveTaskOverColumnKeepsReferences` | Frontend/src/component/KanbanBoard.tsx:241-246 | moving a task onto an existing column keeps every task pointing at an existing column |
| `BoardUpdates.RemoveColumn` | Frontend/src/component/KanbanBoard.tsx:118 | exactly the columns with the deleted id go; all others keep their multiplicity |
| `BoardUpdates.RemoveTasksOfColumn` | Frontend/src/component/KanbanBoard.tsx:119 | exactly the tasks of the deleted column go; all others keep their multiplicity |
| `BoardUpdates.RemoveTask` | Frontend/src/component/KanbanBoard.tsx:159 | exactly the tasks with the deleted id go; all others keep their multiplicity |
| `BoardUpdates.DeleteColumnCascade` | Frontend/src/component/KanbanBoard.tsx:115-119 | after a column delete: the id is gone; the column has no tasks left; every other column keeps exactly its task list in order; no task points at a missing column |
| `BoardUpdates.RemoveTaskAbsent` | Frontend/src/component/KanbanBoard.tsx:159 | deleting an id that no task has leaves the task list unchanged |
| `BoardUpdates.RemoveTaskKeepsReferences` | Frontend/src/component/KanbanBoard.tsx:156-159 | after a task delete the id is gone and every task still points at an existing column |
| `BoardUpdates.ReplaceColumn` | Frontend/src/component/KanbanBoard.tsx:109 | same length; every column of the result is an old column or the reply; the reply is present when some column had the id; every column with the id becomes the reply; columns with another id stay at their index |
| `BoardUpdates.ReplaceTask` | Frontend/src/component/KanbanBoard.tsx:150 | same length; every task of the result is an old task or the reply; the reply is present when some task had the id; every task with the id becomes the reply; tasks with another id stay at their index |
| `BoardUpdates.ReplaceColumnKeepsIds` | Frontend/src/component/KanbanBoard.tsx:106-109 | a reply carrying the same id keeps the id list and task references; replacing twice equals replacing once |
| `BoardUpdates.ReplaceTaskKeepsIds` | Frontend/src/component/KanbanBoard.tsx:147-150 | a reply with the same id, in an existing column, keeps the id list and task references; replacing twice equals replacing once |
| `BoardUpdates.InitialColumnDrafts` | Frontend/src/component/KanbanBoard.tsx:75-80 | the seed is three columns on the given board, at positions 0, 1 and 2 |
| `BoardUpdates.InitialBoardDraft` | Frontend/src/component/KanbanBoard.tsx:60-63 | the request for the default board: name "My Kanban Board" and its fixed description |
| `BoardUpdates.NewColumnDraft` | Frontend/src/component/KanbanBoard.tsx:92-97 | the new column goes last (position `columns.length`) on the given board; its title is "New Column " followed by digits, without a leading zero, that read back as `columns.length + 1` |
| `BoardUpdates.NewTaskDraft` | Frontend/src/component/KanbanBoard.tsx:125-137 | a task request exists exactly when some column has the id; its position is the number of tasks already in that column; its title is `Task n - <title of the first column with that id>` and its content `New Task n`, where n is one more than the number of tasks on the board |
| `BoardUpdates.NewColumnKeepsPositions` | Frontend/src/component/KanbanBoard.tsx:91-100 | appending a column at position `columns.length` keeps every column's position equal to its index |
| `BoardUpdates.NewTaskLandsLast` | Frontend/src/component/KanbanBoard.tsx:125-141 | a created task that echoes the requested column and position becomes the last task of its column, at the index its position names; other columns unchanged; positions-equal-indices preserved |
| `Kanban.KanbanBoard.constructor` | Frontend/src/component/KanbanBoard.tsx:13-17 | the component starts with no board, no columns, no tasks and both active slots empty |
| `Kanban.KanbanBoard.LoadInitialData` | Frontend/src/component/KanbanBoard.tsx:29-58 | uses the first fetched board, or creates the default board when none exists; installs the fetched columns and tasks; seeds three columns when there are none and the board id is truthy; a failed call stops the load at that point |
| `Kanban.KanbanBoard.CreateNewColumn` | Frontend/src/component/KanbanBoard.tsx:91-104 | without a board with a truthy id nothing is sent; otherwise requests "New Column n+1" at position `columns.length` and appends the reply on success; keeps references and positions-equal-indices |
| `Kanban.KanbanBoard.UpdateColumn` | Frontend/src/component/KanbanBoard.tsx:106-113 | sends `{ title }`; on success the reply replaces the column by id, otherwise nothing changes; references are kept |
| `Kanban.KanbanBoard.DeleteColumn` | Frontend/src/component/KanbanBoard.tsx:115-123 | on success the column and all its tasks are removed, otherwise nothing changes; references are kept |
| `Kanban.KanbanBoard.CreateTask` | Frontend/src/component/KanbanBoard.tsx:125-145 | sends exactly `NewTaskDraft`'s request: nothing when the column is absent, otherwise a task positioned after its column's tasks; appends the reply on success; keeps references and per-column positions |
| `Kanban.KanbanBoard.UpdateTask` | Frontend/src/component/KanbanBoard.tsx:147-154 | sends `{ content }`; on success the reply replaces the task by id, otherwise nothing changes; references are kept |
| `Kanban.KanbanBoard.DeleteTask` | Frontend/src/component/KanbanBoard.tsx:156-163 | on success the task is removed, otherwise nothing changes; references are kept |
| `Kanban.KanbanBoard.OnDragStart` | Frontend/src/component/KanbanBoard.tsx:165-171 | records the dragged column or task in its slot; leaves the other slot and the board untouched |
| `Kanban.DragEndThrows` | Frontend/src/component/KanbanBoard.tsx:195-201 | a task drop fails with a `TypeError` exactly when a different target is present and either `findIndex` misses, so `tasks[-1].columnId` is read |
| `Kanban.DragOverThrows` | Frontend/src/component/KanbanBoard.tsx:221-244 | a task drag-over fails exactly when it dereferences a missed `findIndex`: over a task, when either task is missing (line 230); over a column, when the dragged task is missing (line 244) |
| `Kanban.ColumnAreaDropThrows` | Frontend/src/component/KanbanBoard.tsx:197-201 | on a board whose column ids are not task ids, dropping a present task on one of its columns takes the throwing path, and the handler's precondition admits it |
| `Kanban.KanbanBoard.OnDragEnd` | Frontend/src/component/KanbanBoard.tsx:173-209 | clears both slots; with no target, or with the item as its own target, columns and tasks are unchanged; a task drop whose `findIndex` misses throws and changes neither list; otherwise performs the column move or the task drop; references are kept |
| `Kanban.KanbanBoard.OnDragOver` | Frontend/src/component/KanbanBoard.tsx:211-248 | changes only tasks, and only when a task is dragged over a different target: over a task it applies the task-over-task move, over a column the column reassignment; throws, changing nothing, when a `findIndex` it dereferences misses; references are kept when the column exists |

## Left out

- `Kanban.KanbanBoard.OnDragEnd`: for a column drag it requires both `findIndex` lookups to find their ids. For a task moved across columns whose lookups both succeed it requires `overIndex - 1 >= 0`. Both restrictions exclude only calls that pass a negative index to `arrayMove`; what the library does with one is not modelled, because the library's code is not part of this model. A task drop whose lookup misses is modelled: it throws.
- `BoardUpdates.MoveTaskOverTask`, `BoardUpdates.MoveTaskOverColumn`: require the ids they look up to be present; `OnDragOver` calls them only after its lookups succeed, and returns `thrown` otherwise.
- `BoardUpdates.MoveColumn`: requires both column ids to be present. The source's column path never checks its lookups and passes a -1 to `arrayMove`; the model instead makes presence a precondition of `Kanban.KanbanBoard.OnDragEnd`.
- `BoardUpdates.DropTaskOnTask`: requires both ids to be present and, for a drop across columns, `overIndex - 1 >= 0` (through `BoardUpdates.CanDropTaskOnTask`), the same two restrictions as `Kanban.KanbanBoard.OnDragEnd`.
- **Thrown errors.** A `TypeError` thrown in a state-updater is returned as the handler's `thrown` result with the updated list left as it was. What React then does with the error (error boundaries, unmounting) is not modelled.
- **Aliasing.** The source sets `tasks[i].columnId` in place. That writes into the task object shared with the previous state, and with the `activeTask` slot when it holds the same object. The model updates a value copy, so neither alias changes.
- **Interleaving.** Each handler reads `columns`/`tasks` before awaiting the API and updates `prev` afterwards. The model runs each handler atomically with the reply given as a parameter, so interleaving between request and reply is not modelled.
- **HTTP.** The HTTP calls of the board service become `Reply` parameters. Error logging (`console.error`) is left out.
- **Server behaviour.** The server-side rules that override `position` are not part of this model. Backend/kanban_backend/views.py is not part of this model. Lemmas about a created entity therefore assume the reply echoes the requested position and column.
- **Ids.** Entity ids are modelled as integers.
  - `Column.id` and `Task.id` are optional in the TypeScript interfaces. The filter of undefined ids for the sortable context is not modelled.
  - Drag ids may also be strings in the library.
  - The board id keeps its optionality, and JavaScript truthiness (`undefined` and `0` are falsy; `NaN` cannot arise with integers).
- **Initial columns.** The three create-column calls of the seed are one `Reply` over the list of created columns. If any of them fails, no columns are installed.
- **Not modelled (no state logic).** The 3-pixel pointer activation threshold, the drag overlay, portal rendering, login, signup and navigation views, and token storage.

=== FILE: BoardTypes.dfy ===
/**
 * The entities of the board as the front end holds them (the `Board`,
 * `Column` and `Task` interfaces of the board service), the requests it
 * sends to create them, and the views of the task list the board uses.
 */
module BoardTypes {
  import opened Outcomes
  import opened Sequences

  /** A board; the API may leave its id out. */
  datatype Board = Board(id: Option<int>, name: string, description: string)

  /** A column of the board; `position` is its rank among the columns. */
  datatype Column = Column(id: int, title: string, position: int, board: int)

  /** A task; `columnId` names the column it sits in, `position` its rank there. */
  datatype Task = Task(id: int, title: string, content: string, columnId: int, position: int)

  /** The body of a create-board request (a board without id and timestamps). */
  datatype BoardDraft = BoardDraft(name: string, description: string)

  /** The body of a create-column request (a column without id). */
  datatype ColumnDraft = ColumnDraft(title: string, position: int, board: int)

  /** The body of a create-task request (a task without id). */
  datatype TaskDraft = TaskDraft(title: string, content: string, columnId: int, position: int)

  /** The body of a column rename request: `{ title }`. */
  datatype ColumnPatch = ColumnPatch(title: string)

  /** The body of a task edit request: `{ content }`. */
  datatype TaskPatch = TaskPatch(content: string)

  /**
   * JavaScript truthiness of an optional numeric id: `undefined` and `0`
   * are both falsy.
   */
  predicate IsTruthyId(id: Option<int>) {
    id.Some? && id.value != 0
  }

  /** `columns.map(col => col.id)`. */
  function ColumnIds(cs: seq<Column>): seq<int> {
    MapSeq((c: Column) => c.id, cs)
  }

  /** `tasks.map(t => t.id)`. */
  function TaskIds(ts: seq<Task>): seq<int> {
    MapSeq((t: Task) => t.id, ts)
  }

  /** `columns.findIndex(col => col.id === id)`. */
  function ColumnIndex(cs: seq<Column>, id: int): int {
    IndexOf(ColumnIds(cs), id)
  }

  /** `tasks.findIndex(t => t.id === id)`. */
  function TaskIndex(ts: seq<Task>, id: int): int {
    IndexOf(TaskIds(ts), id)
  }

  function InColumn(columnId: int): Task -> bool {
    (t: Task) => t.columnId == columnId
  }

  function OutsideColumn(columnId: int): Task -> bool {
    (t: Task) => t.columnId != columnId
  }

  function TaskIdIsNot(id: int): Task -> bool {
    (t: Task) => t.id != id
  }

  function ColumnIdIs(id: int): Column -> bool {
    (c: Column) => c.id == id
  }

  function TaskIdIs(id: int): Task -> bool {
    (t: Task) => t.id == id
  }

  function ColumnIdIsNot(id: int): Column -> bool {
    (c: Column) => c.id != id
  }

  /** `tasks.filter(task => task.columnId === columnId)`: one column's tasks, in list order. */
  function TasksIn(ts: seq<Task>, columnId: int): seq<Task> {
    Filter(InColumn(columnId), ts)
  }

  /** Every task sits in a column that the board holds. */
  predicate TasksReferenceColumns(cs: seq<Column>, ts: seq<Task>) {
    forall t :: t in ts ==> t.columnId in ColumnIds(cs)
  }

  /** Every column's `position` is its index in the column list. */
  predicate ColumnPositionsMatchOrder(cs: seq<Column>) {
    forall i :: 0 <= i < |cs| ==> cs[i].position == i
  }

  /** Within every column, every task's `position` is its index among that column's tasks. */
  ghost predicate TaskPositionsMatchOrder(ts: seq<Task>) {
    forall c, i :: 0 <= i < |TasksIn(ts, c)| ==> TasksIn(ts, c)[i].position == i
  }
}

=== FILE: BoardUpdates.dfy ===
/**
 * The state updates of the Kanban board component: the functions each
 * handler passes to a state setter (`setColumns(prev => ...)`,
 * `setTasks(tasks => ...)`), and the bodies of the requests it sends to
 * create columns and tasks. The lemmas state what the updates preserve.
 */
module BoardUpdates {
  import opened Outcomes
  import opened Sequences
  import opened Text
  import opened BoardTypes

  // ---------------------------------------------------------------------
  // Helper facts about the id lists

  lemma TaskIdsRemove(ts: seq<Task>, i: nat)
    requires i < |ts|
    ensures TaskIds(Remove(ts, i)) == Remove(TaskIds(ts), i)
  {
    var l, r := TaskIds(Remove(ts, i)), Remove(TaskIds(ts), i);
    assert |l| == |r|;
    forall k | 0 <= k < |l| ensures l[k] == r[k] {
      if k < i {
        assert Remove(ts, i)[k] == ts[k];
      } else {
        assert Remove(ts, i)[k] == ts[k + 1];
      }
    }
  }

  /** Moving a task moves its id in the id list the same way. */
  lemma {:induction false} TaskIdsMove(ts: seq<Task>, from: nat, to: nat)
    requires from < |ts| && to < |ts|
    ensures TaskIds(ArrayMove(ts, from, to)) == ArrayMove(TaskIds(ts), from, to)
    ensures multiset(TaskIds(ArrayMove(ts, from, to))) == multiset(TaskIds(ts))
  {
    var r := ArrayMove(ts, from, to);
    TaskIdsRemove(r, to);
    TaskIdsRemove(ts, from);
    ArrayMoveUnique(TaskIds(ts), from, to, TaskIds(r));
  }

  lemma TaskIdsUpdate(ts: seq<Task>, i: nat, t: Task)
    requires i < |ts| && t.id == ts[i].id
    ensures TaskIds(ts[i := t]) == TaskIds(ts)
  {
  }

  lemma ColumnIdOf(cs: seq<Column>, c: Column)
    requires c in cs
    ensures c.id in ColumnIds(cs)
  {
    var i :| 0 <= i < |cs| && cs[i] == c;
    assert ColumnIds(cs)[i] == c.id;
  }

  // ---------------------------------------------------------------------
  // Reordering by drag and drop

  /**
   * The column drop: `arrayMove(columns, activeColumnIndex, overColumnIndex)`.
   * The result is a permutation of the columns in which the dragged column
   * sits at the index the target column held, and every other column keeps
   * its relative order.
   */
  function MoveColumn(cs: seq<Column>, activeId: int, overId: int): (r: seq<Column>)
    requires activeId in ColumnIds(cs) && overId in ColumnIds(cs)
    ensures |r| == |cs| && multiset(r) == multiset(cs)
    ensures r[ColumnIndex(cs, overId)] == cs[ColumnIndex(cs, activeId)]
    ensures r[ColumnIndex(cs, overId)].id == activeId
    ensures Remove(r, ColumnIndex(cs, overId)) == Remove(cs, ColumnIndex(cs, activeId))
  {
    ArrayMove(cs, ColumnIndex(cs, activeId), ColumnIndex(cs, overId))
  }

  /**
   * Two columns `[A, B]`: dropping A on B gives `[B, A]`, and the stored
   * positions no longer follow the displayed order (they are not re-derived).
   */
  lemma {:induction false} MoveColumnSwapsPair(a: Column, b: Column)
    requires a.id != b.id && a.position == 0 && b.position == 1
    ensures ColumnPositionsMatchOrder([a, b])
    ensures ColumnIds([a, b]) == [a.id, b.id]
    ensures MoveColumn([a, b], a.id, b.id) == [b, a]
    ensures !ColumnPositionsMatchOrder(MoveColumn([a, b], a.id, b.id))
  {
    var cs := [a, b];
    assert ColumnIds(cs) == [a.id, b.id];
    assert ColumnIndex(cs, a.id) == 0;
    assert ColumnIndex(cs, b.id) == 1;
    ArrayMoveAt(cs, 0, 1, 0);
    ArrayMoveAt(cs, 0, 1, 1);
    assert MoveColumn(cs, a.id, b.id) == [b, a];
  }

  /** Reordering columns keeps every task attached to a column that exists. */
  lemma {:induction false} MoveColumnKeepsReferences(cs: seq<Column>, ts: seq<Task>, activeId: int, overId: int)
    requires activeId in ColumnIds(cs) && overId in ColumnIds(cs)
    requires TasksReferenceColumns(cs, ts)
    ensures TasksReferenceColumns(MoveColumn(cs, activeId, overId), ts)
  {
    var r := MoveColumn(cs, activeId, overId);
    forall t | t in ts ensures t.columnId in ColumnIds(r) {
      var k := ColumnIndex(cs, t.columnId);
      assert cs[k] in multiset(cs);
      ColumnIdOf(r, cs[k]);
    }
  }

  /**
   * Task over task during a drag: the dragged task takes the over task's
   * column and is moved to the index the over task held. Every other task
   * is unchanged and keeps its relative order, and the ids are permuted.
   */
  function MoveTaskOverTask(ts: seq<Task>, activeId: int, overId: int): (r: seq<Task>)
    requires activeId in TaskIds(ts) && overId in TaskIds(ts)
    ensures |r| == |ts|
    ensures var a, o := TaskIndex(ts, activeId), TaskIndex(ts, overId);
            r[o] == ts[a].(columnId := ts[o].columnId) && r[o].id == activeId
    ensures Remove(r, TaskIndex(ts, overId)) == Remove(ts, TaskIndex(ts, activeId))
    ensures multiset(TaskIds(r)) == multiset(TaskIds(ts))
  {
    var a, o := TaskIndex(ts, activeId), TaskIndex(ts, overId);
    if ts[a].columnId != ts[o].columnId then
      var moved := ts[a := ts[a].(columnId := ts[o].columnId)];
      RemoveUpdate(ts, a, moved[a]);
      TaskIdsUpdate(ts, a, moved[a]);
      TaskIdsMove(moved, a, o);
      ArrayMove(moved, a, o)
    else
      TaskIdsMove(ts, a, o);
      ArrayMove(ts, a, o)
  }

  /** Whether the task drop reads only indices that exist (`findIndex` found both, `overIndex - 1` is not -1). */
  predicate CanDropTaskOnTask(ts: seq<Task>, activeId: int, overId: int) {
    && activeId in TaskIds(ts)
    && overId in TaskIds(ts)
    && (ts[TaskIndex(ts, activeId)].columnId != ts[TaskIndex(ts, overId)].columnId ==>
          TaskIndex(ts, overId) >= 1)
  }

  /**
   * The task drop: when the two tasks sit in different columns the dragged
   * task takes the over task's column and goes to index `overIndex - 1`,
   * otherwise it goes to `overIndex`. Every other task is unchanged and
   * keeps its relative order, and the ids are permuted.
   */
  function DropTaskOnTask(ts: seq<Task>, activeId: int, overId: int): (r: seq<Task>)
    requires CanDropTaskOnTask(ts, activeId, overId)
    ensures |r| == |ts| && multiset(TaskIds(r)) == multiset(TaskIds(ts))
    ensures var a, o := TaskIndex(ts, activeId), TaskIndex(ts, overId);
            ts[a].columnId != ts[o].columnId ==>
              r[o - 1] == ts[a].(columnId := ts[o].columnId) && Remove(r, o - 1) == Remove(ts, a)
    ensures var a, o := TaskIndex(ts, activeId), TaskIndex(ts, overId);
            ts[a].columnId == ts[o].columnId ==>
              r[o] == ts[a] && Remove(r, o) == Remove(ts, a)
  {
    var a, o := TaskIndex(ts, activeId), TaskIndex(ts, overId);
    if ts[a].columnId != ts[o].columnId then
      var moved := ts[a := ts[a].(columnId := ts[o].columnId)];
      RemoveUpdate(ts, a, moved[a]);
      TaskIdsUpdate(ts, a, moved[a]);
      TaskIdsMove(moved, a, o - 1);
      ArrayMove(moved, a, o - 1)
    else
      TaskIdsMove(ts, a, o);
      ArrayMove(ts, a, o)
  }

  /**
   * Where a drop across columns lands next to its target: when the dragged
   * task came earlier in the list it lands directly before the target; when
   * it came later it lands before the task that preceded the target, which
   * then sits between the two.
   */
  lemma {:induction false} CrossColumnDropLanding(ts: seq<Task>, activeId: int, overId: int)
    requires CanDropTaskOnTask(ts, activeId, overId)
    requires ts[TaskIndex(ts, activeId)].columnId != ts[TaskIndex(ts, overId)].columnId
    ensures var a, o, r := TaskIndex(ts, activeId), TaskIndex(ts, overId), DropTaskOnTask(ts, activeId, overId);
            && r[o - 1].id == activeId
            && (a < o ==> r[o] == ts[o])
            && (o < a ==> r[o] == ts[o - 1] && r[o + 1] == ts[o])
  {
    var a, o := TaskIndex(ts, activeId), TaskIndex(ts, overId);
    var moved := ts[a := ts[a].(columnId := ts[o].columnId)];
    assert DropTaskOnTask(ts, activeId, overId) == ArrayMove(moved, a, o - 1);
    ArrayMoveAt(moved, a, o - 1, o);
    if o < a {
      ArrayMoveAt(moved, a, o - 1, o + 1);
    }
  }

  /**
   * Task over a column's empty area: only the dragged task changes, and only
   * its column; `arrayMove(tasks, i, i)` leaves the order as it was.
   */
  function MoveTaskOverColumn(ts: seq<Task>, activeId: int, columnId: int): (r: seq<Task>)
    requires activeId in TaskIds(ts)
    ensures var a := TaskIndex(ts, activeId);
            r == ts[a := ts[a].(columnId := columnId)]
  {
    var a := TaskIndex(ts, activeId);
    var moved := ts[a := ts[a].(columnId := columnId)];
    ArrayMoveIdentity(moved, a);
    ArrayMove(moved, a, a)
  }

  /**
   * Moving a task onto another column's area takes one task from its old
   * column and adds one to the new column; every other column keeps its count.
   */
  lemma {:induction false} MoveTaskOverColumnCounts(ts: seq<Task>, activeId: int, columnId: int)
    requires activeId in TaskIds(ts)
    requires ts[TaskIndex(ts, activeId)].columnId != columnId
    ensures var r, from := MoveTaskOverColumn(ts, activeId, columnId), ts[TaskIndex(ts, activeId)].columnId;
            && |TasksIn(r, columnId)| == |TasksIn(ts, columnId)| + 1
            && |TasksIn(r, from)| == |TasksIn(ts, from)| - 1
    ensures forall c :: c != columnId && c != ts[TaskIndex(ts, activeId)].columnId ==>
              |TasksIn(MoveTaskOverColumn(ts, activeId, columnId), c)| == |TasksIn(ts, c)|
  {
    var a := TaskIndex(ts, activeId);
    var t := ts[a].(columnId := columnId);
    FilterUpdateCount(InColumn(columnId), ts, a, t);
    FilterUpdateCount(InColumn(ts[a].columnId), ts, a, t);
    forall c | c != columnId && c != ts[a].columnId
      ensures |TasksIn(MoveTaskOverColumn(ts, activeId, columnId), c)| == |TasksIn(ts, c)|
    {
      FilterUpdateCount(InColumn(c), ts, a, t);
    }
  }

  /**
   * A task list that agrees with `ts` everywhere except at one index, where
   * the task sits in an existing column, references only existing columns.
   */
  lemma {:induction false} OneTaskMovedKeepsReferences(cs: seq<Column>, ts: seq<Task>, a: nat, r: seq<Task>, k: nat)
    requires a < |ts| && k < |r| && Remove(r, k) == Remove(ts, a)
    requires TasksReferenceColumns(cs, ts) && r[k].columnId in ColumnIds(cs)
    ensures TasksReferenceColumns(cs, r)
  {
    MultisetRemove(r, k);
    MultisetRemove(ts, a);
    forall t | t in r ensures t.columnId in ColumnIds(cs) {
      if t != r[k] {
        assert t in multiset(Remove(ts, a));
        assert t in multiset(ts);
      }
    }
  }

  /** Task over task keeps every task attached to a column that exists. */
  lemma {:induction false} MoveTaskOverTaskKeepsReferences(cs: seq<Column>, ts: seq<Task>, activeId: int, overId: int)
    requires activeId in TaskIds(ts) && overId in TaskIds(ts)
    requires TasksReferenceColumns(cs, ts)
    ensures TasksReferenceColumns(cs, MoveTaskOverTask(ts, activeId, overId))
  {
    var o := TaskIndex(ts, overId);
    assert ts[o] in ts;
    OneTaskMovedKeepsReferences(cs, ts, TaskIndex(ts, activeId), MoveTaskOverTask(ts, activeId, overId), o);
  }

  /** The task drop keeps every task attached to a column that exists. */
  lemma {:induction false} DropTaskOnTaskKeepsReferences(cs: seq<Column>, ts: seq<Task>, activeId: int, overId: int)
    requires CanDropTaskOnTask(ts, activeId, overId)
    requires TasksReferenceColumns(cs, ts)
    ensures TasksReferenceColumns(cs, DropTaskOnTask(ts, activeId, overId))
  {
    var a, o := TaskIndex(ts, activeId), TaskIndex(ts, overId);
    assert ts[o] in ts && ts[a] in ts;
    var k := if ts[a].columnId != ts[o].columnId then o - 1 else o;
    OneTaskMovedKeepsReferences(cs, ts, a, DropTaskOnTask(ts, activeId, overId), k);
  }

  /** Task over an existing column keeps every task attached to a column that exists. */
  lemma {:induction false} MoveTaskOverColumnKeepsReferences(cs: seq<Column>, ts: seq<Task>, activeId: int, columnId: int)
    requires activeId in TaskIds(ts) && columnId in ColumnIds(cs)
    requires TasksReferenceColumns(cs, ts)
    ensures TasksReferenceColumns(cs, MoveTaskOverColumn(ts, activeId, columnId))
  {
    var a := TaskIndex(ts, activeId);
    RemoveUpdate(ts, a, ts[a].(columnId := columnId));
    OneTaskMovedKeepsReferences(cs, ts, a, MoveTaskOverColumn(ts, activeId, columnId), a);
  }

  // ---------------------------------------------------------------------
  // Updates after a successful API call

  /** `prev.filter(col => col.id !== id)`: exactly the columns with that id go. */
  function RemoveColumn(cs: seq<Column>, id: int): (r: seq<Column>)
    ensures forall c :: multiset(r)[c] == if c.id == id then 0 else multiset(cs)[c]
  {
    Filter(ColumnIdIsNot(id), cs)
  }

  /** `prev.filter(task => task.columnId !== id)`: exactly the tasks of that column go. */
  function RemoveTasksOfColumn(ts: seq<Task>, columnId: int): (r: seq<Task>)
    ensures forall t :: multiset(r)[t] == if t.columnId == columnId then 0 else multiset(ts)[t]
  {
    Filter(OutsideColumn(columnId), ts)
  }

  /** `prev.filter(task => task.id !== id)`: exactly the tasks with that id go. */
  function RemoveTask(ts: seq<Task>, id: int): (r: seq<Task>)
    ensures forall t :: multiset(r)[t] == if t.id == id then 0 else multiset(ts)[t]
  {
    Filter(TaskIdIsNot(id), ts)
  }

  /** Deleting a task id that is not on the board leaves the list as it was. */
  lemma {:induction false} RemoveTaskAbsent(ts: seq<Task>, id: int)
    requires id !in TaskIds(ts)
    ensures RemoveTask(ts, id) == ts
  {
    forall i | 0 <= i < |ts| ensures TaskIdIsNot(id)(ts[i]) {
      assert TaskIds(ts)[i] == ts[i].id;
    }
    FilterKeepsAll(TaskIdIsNot(id), ts);
  }

  /** After the column delete no task of that column is left, and every other column keeps its list. */
  lemma {:induction false} RemoveTasksOfColumnLists(ts: seq<Task>, id: int)
    ensures TasksIn(RemoveTasksOfColumn(ts, id), id) == []
    ensures forall c :: c != id ==> TasksIn(RemoveTasksOfColumn(ts, id), c) == TasksIn(ts, c)
  {
    var rt := RemoveTasksOfColumn(ts, id);
    forall c | c != id ensures TasksIn(rt, c) == TasksIn(ts, c) {
      FilterFilter(OutsideColumn(id), InColumn(c), ts);
    }
  }

  /** The column delete leaves no task pointing at a missing column. */
  lemma {:induction false} RemoveColumnKeepsReferences(cs: seq<Column>, ts: seq<Task>, id: int)
    requires TasksReferenceColumns(cs, ts)
    ensures TasksReferenceColumns(RemoveColumn(cs, id), RemoveTasksOfColumn(ts, id))
  {
    var rc, rt := RemoveColumn(cs, id), RemoveTasksOfColumn(ts, id);
    forall t | t in rt ensures t.columnId in ColumnIds(rc) {
      assert t in multiset(rt);
      assert t in ts;
      var k := ColumnIndex(cs, t.columnId);
      assert cs[k] in multiset(cs);
      assert cs[k] in multiset(rc);
      ColumnIdOf(rc, cs[k]);
    }
  }

  /**
   * Deleting a column cascades to its tasks: the column's id is gone, none of
   * its tasks remain, every other column keeps exactly its task list in the
   * same order, and no task is left pointing at a missing column.
   */
  lemma {:induction false} DeleteColumnCascade(cs: seq<Column>, ts: seq<Task>, id: int)
    ensures id !in ColumnIds(RemoveColumn(cs, id))
    ensures TasksIn(RemoveTasksOfColumn(ts, id), id) == []
    ensures forall c :: c != id ==> TasksIn(RemoveTasksOfColumn(ts, id), c) == TasksIn(ts, c)
    ensures TasksReferenceColumns(cs, ts) ==>
              TasksReferenceColumns(RemoveColumn(cs, id), RemoveTasksOfColumn(ts, id))
  {
    RemoveTasksOfColumnLists(ts, id);
    if TasksReferenceColumns(cs, ts) {
      RemoveColumnKeepsReferences(cs, ts, id);
    }
  }

  /** Deleting a task keeps every remaining task attached to a column that exists. */
  lemma {:induction false} RemoveTaskKeepsReferences(cs: seq<Column>, ts: seq<Task>, id: int)
    requires TasksReferenceColumns(cs, ts)
    ensures TasksReferenceColumns(cs, RemoveTask(ts, id))
    ensures id !in TaskIds(RemoveTask(ts, id))
  {
    var r := RemoveTask(ts, id);
    forall t | t in r ensures t.columnId in ColumnIds(cs) {
      assert t in multiset(r);
      assert t in ts;
    }
  }

  /** `prev.map(col => col.id === id ? updated : col)`. */
  function ReplaceColumn(cs: seq<Column>, id: int, updated: Column): (r: seq<Column>)
    ensures |r| == |cs|
    ensures forall c :: c in r ==> c in cs || c == updated
    ensures id in ColumnIds(cs) ==> updated in r
    ensures forall i :: 0 <= i < |cs| && cs[i].id == id ==> r[i] == updated
    ensures forall i :: 0 <= i < |cs| && cs[i].id != id ==> r[i] == cs[i]
  {
    ReplaceWhere(cs, ColumnIdIs(id), updated)
  }

  /** `prev.map(task => task.id === id ? updated : task)`. */
  function ReplaceTask(ts: seq<Task>, id: int, updated: Task): (r: seq<Task>)
    ensures |r| == |ts|
    ensures forall t :: t in r ==> t in ts || t == updated
    ensures id in TaskIds(ts) ==> updated in r
    ensures forall i :: 0 <= i < |ts| && ts[i].id == id ==> r[i] == updated
    ensures forall i :: 0 <= i < |ts| && ts[i].id != id ==> r[i] == ts[i]
  {
    ReplaceWhere(ts, TaskIdIs(id), updated)
  }

  /**
   * Replacing a column by a reply that carries the same id keeps the id list,
   * so every task still references an existing column; replacing twice is
   * replacing once.
   */
  lemma {:induction false} ReplaceColumnKeepsIds(cs: seq<Column>, ts: seq<Task>, id: int, updated: Column)
    requires updated.id == id
    ensures ColumnIds(ReplaceColumn(cs, id, updated)) == ColumnIds(cs)
    ensures TasksReferenceColumns(cs, ts) ==> TasksReferenceColumns(ReplaceColumn(cs, id, updated), ts)
    ensures ReplaceColumn(ReplaceColumn(cs, id, updated), id, updated) == ReplaceColumn(cs, id, updated)
  {
    var r := ReplaceColumn(cs, id, updated);
    assert ColumnIds(r) == ColumnIds(cs);
    ReplaceWhereTwice(cs, ColumnIdIs(id), updated);
  }

  /**
   * Replacing a task by a reply with the same id that sits in an existing
   * column keeps the id list and every task attached to an existing column;
   * replacing twice is replacing once.
   */
  lemma {:induction false} ReplaceTaskKeepsIds(cs: seq<Column>, ts: seq<Task>, id: int, updated: Task)
    requires updated.id == id
    ensures TaskIds(ReplaceTask(ts, id, updated)) == TaskIds(ts)
    ensures TasksReferenceColumns(cs, ts) && updated.columnId in ColumnIds(cs) ==>
              TasksReferenceColumns(cs, ReplaceTask(ts, id, updated))
    ensures ReplaceTask(ReplaceTask(ts, id, updated), id, updated) == ReplaceTask(ts, id, updated)
  {
    var r := ReplaceTask(ts, id, updated);
    assert TaskIds(r) == TaskIds(ts);
    if TasksReferenceColumns(cs, ts) && updated.columnId in ColumnIds(cs) {
      forall t | t in r ensures t.columnId in ColumnIds(cs) {
        var i :| 0 <= i < |r| && r[i] == t;
        if ts[i].id != id {
          assert ts[i] in ts;
        }
      }
    }
    ReplaceWhereTwice(ts, TaskIdIs(id), updated);
  }

  // ---------------------------------------------------------------------
  // Requests that create entities

  /** The three columns a new board is seeded with. */
  function InitialColumnDrafts(boardId: int): (ds: seq<ColumnDraft>)
    ensures |ds| == 3
    ensures forall i :: 0 <= i < |ds| ==> ds[i].position == i && ds[i].board == boardId
  {
    [ ColumnDraft("To Do", 0, boardId),
      ColumnDraft("In Progress", 1, boardId),
      ColumnDraft("Done", 2, boardId) ]
  }

  /** The board created when the API has none. */
  function InitialBoardDraft(): BoardDraft {
    BoardDraft("My Kanban Board", "A board to organize my tasks and projects")
  }

  /** The column the add-column button asks for: numbered after the existing ones, placed last. */
  function NewColumnDraft(cs: seq<Column>, boardId: int): (d: ColumnDraft)
    ensures d.position == |cs| && d.board == boardId
    ensures |d.title| > 11 && d.title[..11] == "New Column " && AllDigits(d.title[11..])
    ensures StringToNat(d.title[11..]) == |cs| + 1
    ensures |d.title| > 12 ==> d.title[11] != '0'
  {
    var n := NatToString(|cs| + 1);
    NatToStringRoundTrip(|cs| + 1);
    assert ("New Column " + n)[11..] == n;
    ColumnDraft("New Column " + n, |cs|, boardId)
  }

  /**
   * The task the add-task button asks for in column `columnId`: nothing when
   * no column has that id; otherwise a task placed after the column's
   * current tasks, titled after the first column with that id.
   */
  function NewTaskDraft(cs: seq<Column>, ts: seq<Task>, columnId: int): (d: Option<TaskDraft>)
    ensures d.Some? <==> columnId in ColumnIds(cs)
    ensures d.Some? ==> d.value.columnId == columnId && d.value.position == |TasksIn(ts, columnId)|
    ensures d.Some? ==>
              var n := NatToString(|ts| + 1);
              var k := ColumnIndex(cs, columnId);
              0 <= k && cs[k].id == columnId && (forall j :: 0 <= j < k ==> cs[j].id != columnId) &&
              d.value.title == "Task " + n + " - " + cs[k].title && d.value.content == "New Task " + n
  {
    var k := ColumnIndex(cs, columnId);
    if k == -1 then None
    else
      var n := NatToString(|ts| + 1);
      Some(TaskDraft("Task " + n + " - " + cs[k].title, "New Task " + n, columnId, |TasksIn(ts, columnId)|))
  }

  /** Appending a column whose position is the old column count keeps positions equal to indices. */
  lemma {:induction false} NewColumnKeepsPositions(cs: seq<Column>, boardId: int, created: Column)
    requires ColumnPositionsMatchOrder(cs)
    requires created.position == NewColumnDraft(cs, boardId).position
    ensures ColumnPositionsMatchOrder(cs + [created])
  {
    var r := cs + [created];
    forall i | 0 <= i < |r| ensures r[i].position == i {
      if i < |cs| {
        assert r[i] == cs[i];
      }
    }
  }

  /** Appending a task extends its own column's list by that task and leaves the other lists alone. */
  lemma {:induction false} AppendTaskLists(ts: seq<Task>, t: Task)
    ensures forall c :: TasksIn(ts + [t], c) == TasksIn(ts, c) + (if c == t.columnId then [t] else [])
  {
    forall c ensures TasksIn(ts + [t], c) == TasksIn(ts, c) + (if c == t.columnId then [t] else []) {
      FilterAppend(InColumn(c), ts, [t]);
      assert [t][1..] == [];
    }
  }

  /** Appending a task whose position is its column's task count keeps positions equal to indices. */
  lemma {:induction false} AppendTaskKeepsPositions(ts: seq<Task>, t: Task)
    requires TaskPositionsMatchOrder(ts)
    requires t.position == |TasksIn(ts, t.columnId)|
    ensures TaskPositionsMatchOrder(ts + [t])
  {
    AppendTaskLists(ts, t);
    forall c, i | 0 <= i < |TasksIn(ts + [t], c)|
      ensures TasksIn(ts + [t], c)[i].position == i
    {
      if c != t.columnId || i < |TasksIn(ts, c)| {
        assert TasksIn(ts + [t], c)[i] == TasksIn(ts, c)[i];
      }
    }
  }

  /**
   * A created task that keeps the requested column and position lands last
   * in its column's list, at the index its position names; no other column's
   * list changes, and positions that matched indices still do.
   */
  lemma {:induction false} NewTaskLandsLast(cs: seq<Column>, ts: seq<Task>, columnId: int, created: Task)
    requires NewTaskDraft(cs, ts, columnId).Some?
    requires created.columnId == columnId
    requires created.position == NewTaskDraft(cs, ts, columnId).value.position
    ensures TasksIn(ts + [created], columnId) == TasksIn(ts, columnId) + [created]
    ensures TasksIn(ts + [created], columnId)[created.position] == created
    ensures forall c :: c != columnId ==> TasksIn(ts + [created], c) == TasksIn(ts, c)
    ensures TaskPositionsMatchOrder(ts) ==> TaskPositionsMatchOrder(ts + [created])
  {
    assert created.position == |TasksIn(ts, columnId)|;
    AppendTaskLists(ts, created);
    if TaskPositionsMatchOrder(ts) {
      AppendTaskKeepsPositions(ts, created);
    }
  }
}

=== FILE: Kanban.dfy ===
/**
 * The Kanban board component: its state (the board, the ordered columns,
 * the flat task list and the two slots for the entity being dragged) and
 * the handlers that change it. Each API call is a `Reply` parameter; its
 * state update happens only when the reply is `Ok`.
 */
module Kanban {
  import opened Outcomes
  import opened Text
  import opened BoardTypes
  import opened BoardUpdates

  /** The `data.current` a draggable or droppable carries: its type tag and entity. */
  datatype DragData = ColumnData(column: Column) | TaskData(task: Task) | NoData

  /** A draggable or droppable: its unique id and its data. */
  datatype Draggable = Draggable(id: int, data: DragData)

  /** A drag-over or drag-end event: what is dragged and what, if anything, is under it. */
  datatype DragEvent = DragEvent(active: Draggable, over: Option<Draggable>)

  /** The event has a target and the target is not the dragged entity itself. */
  predicate HasOtherTarget(e: DragEvent) {
    e.over.Some? && e.active.id != e.over.value.id
  }

  /**
   * A drag-end of a task fails with a `TypeError` when either `findIndex`
   * misses: `tasks[-1]` is `undefined` and reading its `columnId` throws. A
   * task dropped on a column's empty area is such a drop, since the target's
   * id is a column id.
   */
  predicate DragEndThrows(e: DragEvent, ts: seq<Task>) {
    && HasOtherTarget(e)
    && e.active.data.TaskData?
    && (e.active.id !in TaskIds(ts) || e.over.value.id !in TaskIds(ts))
  }

  /** Where a drag-end reaches `arrayMove`, the indices it passes are in range. */
  predicate DragEndIndicesExist(e: DragEvent, cs: seq<Column>, ts: seq<Task>) {
    HasOtherTarget(e) ==>
      && (e.active.data.ColumnData? ==>
            e.active.id in ColumnIds(cs) && e.over.value.id in ColumnIds(cs))
      && (e.active.data.TaskData? && !DragEndThrows(e, ts) ==>
            CanDropTaskOnTask(ts, e.active.id, e.over.value.id))
  }

  /**
   * A drag-over of a task fails with a `TypeError` when the dragged task is
   * missing from the list and the target is a task or a column, or when the
   * target is a task that is missing from the list.
   */
  predicate DragOverThrows(e: DragEvent, ts: seq<Task>) {
    && HasOtherTarget(e)
    && e.active.data.TaskData?
    && ((e.over.value.data.TaskData? && (e.active.id !in TaskIds(ts) || e.over.value.id !in TaskIds(ts)))
        || (e.over.value.data.ColumnData? && e.active.id !in TaskIds(ts)))
  }

  /**
   * On a board whose column ids are not task ids, dropping a task on the
   * empty area of one of its columns fails before anything is moved.
   */
  lemma ColumnAreaDropThrows(cs: seq<Column>, ts: seq<Task>, e: DragEvent)
    requires forall c :: c in cs ==> c.id !in TaskIds(ts)
    requires e.over.Some? && e.over.value.data.ColumnData? && e.over.value.data.column in cs
    requires e.over.value.id == e.over.value.data.column.id
    requires e.active.data.TaskData? && e.active.id in TaskIds(ts)
    ensures DragEndThrows(e, ts)
    ensures DragEndIndicesExist(e, cs, ts)
  {
  }

  class KanbanBoard {
    var board: Option<Board>
    var columns: seq<Column>
    var tasks: seq<Task>
    var activeTask: Option<Task>
    var activeColumn: Option<Column>

    constructor ()
      ensures board == None && columns == [] && tasks == []
      ensures activeTask == None && activeColumn == None
    {
      board, columns, tasks := None, [], [];
      activeTask, activeColumn := None, None;
    }

    /**
     * Initial load: fetch the boards (creating one when there is none),
     * take the first, fetch columns and tasks together, and seed three
     * columns when there are no columns and the board has a truthy id.
     * Any failed call stops the load where it happened.
     */
    method LoadInitialData(
      boardsReply: Reply<seq<Board>>, createdBoard: Reply<Board>,
      columnsReply: Reply<seq<Column>>, tasksReply: Reply<seq<Task>>,
      createdColumns: Reply<seq<Column>>)
      returns (boardRequest: Option<BoardDraft>, seeded: Option<seq<ColumnDraft>>)
      modifies this
      ensures activeTask == old(activeTask) && activeColumn == old(activeColumn)
      ensures boardRequest == (if boardsReply.Ok? && boardsReply.value == [] then Some(InitialBoardDraft()) else None)
      // the board in use, if one was obtained
      ensures var current :=
                if boardsReply.Failed? then None
                else if boardsReply.value != [] then Some(boardsReply.value[0])
                else if createdBoard.Ok? then Some(createdBoard.value)
                else None;
              && board == (if current.Some? then current else old(board))
              && seeded == (if current.Some? && columnsReply.Ok? && tasksReply.Ok?
                               && columnsReply.value == [] && IsTruthyId(current.value.id)
                            then Some(InitialColumnDrafts(current.value.id.value)) else None)
              && (if current.None? || columnsReply.Failed? || tasksReply.Failed?
                     || (seeded.Some? && createdColumns.Failed?)
                  then columns == old(columns) && tasks == old(tasks)
                  else columns == (if seeded.Some? then createdColumns.value else columnsReply.value)
                       && tasks == tasksReply.value)
    {
      boardRequest, seeded := None, None;
      if boardsReply.Failed? {
        return;
      }
      var current: Board;
      if boardsReply.value == [] {
        boardRequest := Some(InitialBoardDraft());
        if createdBoard.Failed? {
          return;
        }
        current := createdBoard.value;
      } else {
        current := boardsReply.value[0];
      }
      board := Some(current);
      if columnsReply.Failed? || tasksReply.Failed? {
        return;
      }
      if columnsReply.value == [] && IsTruthyId(current.id) {
        seeded := Some(InitialColumnDrafts(current.id.value));
        if createdColumns.Failed? {
          return;
        }
        columns := createdColumns.value;
      } else {
        columns := columnsReply.value;
      }
      tasks := tasksReply.value;
    }

    /**
     * Add column: nothing happens without a board whose id is truthy;
     * otherwise a column numbered after the existing ones, at position
     * `columns.length`, is requested and the reply is appended.
     */
    method CreateNewColumn(reply: Reply<Column>) returns (sent: Option<ColumnDraft>)
      modifies this`columns
      ensures sent.Some? <==> old(board).Some? && IsTruthyId(old(board).value.id)
      ensures sent.Some? ==>
                && sent.value.position == |old(columns)|
                && sent.value.board == old(board).value.id.value
                && sent.value.title == "New Column " + NatToString(|old(columns)| + 1)
      ensures columns == if sent.Some? && reply.Ok? then old(columns) + [reply.value] else old(columns)
      ensures TasksReferenceColumns(old(columns), tasks) ==> TasksReferenceColumns(columns, tasks)
      ensures (ColumnPositionsMatchOrder(old(columns)) && (sent.Some? && reply.Ok? ==> reply.value.position == sent.value.position))
        ==> ColumnPositionsMatchOrder(columns)
    {
      sent := None;
      if board.None? || !IsTruthyId(board.value.id) {
        return;
      }
      sent := Some(NewColumnDraft(columns, board.value.id.value));
      if reply.Ok? {
        if ColumnPositionsMatchOrder(columns) && reply.value.position == sent.value.position {
          NewColumnKeepsPositions(columns, board.value.id.value, reply.value);
        }
        ghost var before := columns;
        columns := columns + [reply.value];
        forall c | c in before ensures c.id in ColumnIds(columns) {
          ColumnIdOf(columns, c);
        }
        forall t | t in tasks && t.columnId in ColumnIds(before) ensures t.columnId in ColumnIds(columns) {
          var k := ColumnIndex(before, t.columnId);
          assert before[k] in before;
        }
      }
    }

    /** Rename column `id`: `{ title }` is sent; on success the reply replaces every column with that id. */
    method UpdateColumn(id: int, title: string, reply: Reply<Column>) returns (sent: ColumnPatch)
      modifies this`columns
      ensures sent.title == title
      ensures columns == if reply.Ok? then ReplaceColumn(old(columns), id, reply.value) else old(columns)
      ensures (TasksReferenceColumns(old(columns), tasks) && (reply.Ok? ==> reply.value.id == id))
        ==> TasksReferenceColumns(columns, tasks)
    {
      if reply.Ok? {
        if reply.value.id == id {
          ReplaceColumnKeepsIds(columns, tasks, id, reply.value);
        }
        columns := ReplaceColumn(columns, id, reply.value);
      }
      sent := ColumnPatch(title);
    }

    /** Delete column `id`: on success the column and all of its tasks go. */
    method DeleteColumn(id: int, succeeded: bool)
      modifies this`columns, this`tasks
      ensures columns == if succeeded then RemoveColumn(old(columns), id) else old(columns)
      ensures tasks == if succeeded then RemoveTasksOfColumn(old(tasks), id) else old(tasks)
      ensures TasksReferenceColumns(old(columns), old(tasks)) ==> TasksReferenceColumns(columns, tasks)
    {
      if succeeded {
        DeleteColumnCascade(columns, tasks, id);
        columns := RemoveColumn(columns, id);
        tasks := RemoveTasksOfColumn(tasks, id);
      }
    }

    /**
     * Add task to column `columnId`: nothing is requested when no column has
     * that id; otherwise the task is requested at the end of that column and
     * the reply is appended to the task list.
     */
    method CreateTask(columnId: int, reply: Reply<Task>) returns (sent: Option<TaskDraft>)
      modifies this`tasks
      ensures sent == NewTaskDraft(columns, old(tasks), columnId)
      ensures sent.Some? <==> columnId in ColumnIds(columns)
      ensures sent.Some? ==>
                sent.value.columnId == columnId && sent.value.position == |TasksIn(old(tasks), columnId)|
      ensures tasks == if sent.Some? && reply.Ok? then old(tasks) + [reply.value] else old(tasks)
      ensures (TasksReferenceColumns(columns, old(tasks)) && (sent.Some? && reply.Ok? ==> reply.value.columnId == columnId))
        ==> TasksReferenceColumns(columns, tasks)
      ensures (TaskPositionsMatchOrder(old(tasks))
                && (sent.Some? && reply.Ok? ==> reply.value.columnId == columnId && reply.value.position == sent.value.position))
        ==> TaskPositionsMatchOrder(tasks)
    {
      sent := NewTaskDraft(columns, tasks, columnId);
      if sent.Some? && reply.Ok? {
        if reply.value.columnId == columnId && reply.value.position == sent.value.position {
          NewTaskLandsLast(columns, tasks, columnId, reply.value);
        }
        tasks := tasks + [reply.value];
      }
    }

    /** Edit task `id`: `{ content }` is sent; on success the reply replaces every task with that id. */
    method UpdateTask(id: int, content: string, reply: Reply<Task>) returns (sent: TaskPatch)
      modifies this`tasks
      ensures sent.content == content
      ensures tasks == if reply.Ok? then ReplaceTask(old(tasks), id, reply.value) else old(tasks)
      ensures (TasksReferenceColumns(columns, old(tasks))
                && (reply.Ok? ==> reply.value.id == id && reply.value.columnId in ColumnIds(columns)))
        ==> TasksReferenceColumns(columns, tasks)
    {
      if reply.Ok? {
        if reply.value.id == id {
          ReplaceTaskKeepsIds(columns, tasks, id, reply.value);
        }
        tasks := ReplaceTask(tasks, id, reply.value);
      }
      sent := TaskPatch(content);
    }

    /** Delete task `id`: on success every task with that id goes. */
    method DeleteTask(id: int, succeeded: bool)
      modifies this`tasks
      ensures tasks == if succeeded then RemoveTask(old(tasks), id) else old(tasks)
      ensures TasksReferenceColumns(columns, old(tasks)) ==> TasksReferenceColumns(columns, tasks)
    {
      if succeeded {
        if TasksReferenceColumns(columns, tasks) {
          RemoveTaskKeepsReferences(columns, tasks, id);
        }
        tasks := RemoveTask(tasks, id);
      }
    }

    /** Drag start: remember the dragged column or task; the other slot is left as it was. */
    method OnDragStart(active: Draggable)
      modifies this`activeColumn, this`activeTask
      ensures activeColumn == if active.data.ColumnData? then Some(active.data.column) else old(activeColumn)
      ensures activeTask == if active.data.TaskData? then Some(active.data.task) else old(activeTask)
    {
      match active.data
      case ColumnData(c) =>
        activeColumn := Some(c);
      case TaskData(t) =>
        activeTask := Some(t);
      case NoData =>
    }

    /**
     * Drag end: both active slots are cleared. Without a target, or with the
     * dragged entity as its own target, nothing else changes. A dragged
     * column is moved to its target's index; a dragged task is dropped on
     * the target task.
     */
    method OnDragEnd(e: DragEvent) returns (thrown: bool)
      requires DragEndIndicesExist(e, columns, tasks)
      modifies this`activeColumn, this`activeTask, this`columns, this`tasks
      ensures activeColumn == None && activeTask == None
      ensures thrown == DragEndThrows(e, old(tasks))
      ensures thrown ==> columns == old(columns) && tasks == old(tasks)
      ensures !HasOtherTarget(e) ==> columns == old(columns) && tasks == old(tasks)
      ensures HasOtherTarget(e) && e.active.data.ColumnData? ==>
                columns == MoveColumn(old(columns), e.active.id, e.over.value.id) && tasks == old(tasks)
      ensures HasOtherTarget(e) && e.active.data.TaskData? && !thrown ==>
                tasks == DropTaskOnTask(old(tasks), e.active.id, e.over.value.id) && columns == old(columns)
      ensures e.active.data.NoData? ==> columns == old(columns) && tasks == old(tasks)
      ensures TasksReferenceColumns(old(columns), old(tasks)) ==> TasksReferenceColumns(columns, tasks)
    {
      activeColumn := None;
      activeTask := None;
      thrown := false;
      if e.over.None? {
        return;
      }
      var activeId, overId := e.active.id, e.over.value.id;
      if activeId == overId {
        return;
      }
      if e.active.data.ColumnData? {
        if TasksReferenceColumns(columns, tasks) {
          MoveColumnKeepsReferences(columns, tasks, activeId, overId);
        }
        columns := MoveColumn(columns, activeId, overId);
      }
      if e.active.data.TaskData? {
        var activeIndex, overIndex := TaskIndex(tasks, activeId), TaskIndex(tasks, overId);
        if activeIndex == -1 || overIndex == -1 {
          thrown := true;
          return;
        }
        if TasksReferenceColumns(columns, tasks) {
          DropTaskOnTaskKeepsReferences(columns, tasks, activeId, overId);
        }
        tasks := DropTaskOnTask(tasks, activeId, overId);
      }
    }

    /**
     * Drag over: only a dragged task changes anything. Over another task it
     * moves to that task's index and column; over a column it takes that
     * column's id and keeps its place. Columns and the active slots never
     * change here.
     */
    method OnDragOver(e: DragEvent) returns (thrown: bool)
      modifies this`tasks
      ensures thrown == DragOverThrows(e, old(tasks))
      ensures thrown ==> tasks == old(tasks)
      ensures !HasOtherTarget(e) || !e.active.data.TaskData? ==> tasks == old(tasks)
      ensures HasOtherTarget(e) && e.active.data.TaskData? && e.over.value.data.TaskData? && !thrown ==>
                tasks == MoveTaskOverTask(old(tasks), e.active.id, e.over.value.id)
      ensures HasOtherTarget(e) && e.active.data.TaskData? && e.over.value.data.ColumnData? && !thrown ==>
                tasks == MoveTaskOverColumn(old(tasks), e.active.id, e.over.value.id)
      ensures HasOtherTarget(e) && e.over.value.data.NoData? ==> tasks == old(tasks)
      ensures (TasksReferenceColumns(columns, old(tasks))
                && (HasOtherTarget(e) && e.over.value.data.ColumnData? ==> e.over.value.id in ColumnIds(columns)))
        ==> TasksReferenceColumns(columns, tasks)
    {
      thrown := false;
      if e.over.None? {
        return;
      }
      var activeId, overId := e.active.id, e.over.value.id;
      if activeId == overId {
        return;
      }
      var isActiveTask := e.active.data.TaskData?;
      var isOverTask := e.over.value.data.TaskData?;
      if !isActiveTask {
        return;
      }
      if isActiveTask && isOverTask {
        var activeIndex, overIndex := TaskIndex(tasks, activeId), TaskIndex(tasks, overId);
        if activeIndex == -1 || overIndex == -1 {
          thrown := true;
          return;
        }
        if TasksReferenceColumns(columns, tasks) {
          MoveTaskOverTaskKeepsReferences(columns, tasks, activeId, overId);
        }
        tasks := MoveTaskOverTask(tasks, activeId, overId);
      }
      var isOverColumn := e.over.value.data.ColumnData?;
      if isActiveTask && isOverColumn {
        if TaskIndex(tasks, activeId) == -1 {
          thrown := true;
          return;
        }
        if TasksReferenceColumns(columns, tasks) && overId in ColumnIds(columns) {
          MoveTaskOverColumnKeepsReferences(columns, tasks, activeId, overId);
        }
        tasks := MoveTaskOverColumn(tasks, activeId, overId);
      }
    }
  }
}

=== FILE: Outcomes.dfy ===
/** Optional values and the outcome of a call to the board's REST API. */
module Outcomes {

  /** A value that may be absent (a TypeScript `T | null` or an optional field). */
  datatype Option<+T> = None | Some(value: T)

  /**
   * What an awaited API call produced: the response body, or a rejection.
   * A rejection is only logged by the board, so it carries no payload.
   */
  datatype Reply<+T> = Ok(value: T) | Failed
}

=== FILE: Sequences.dfy ===
/**
 * Sequence operations the board's updaters are built from: removing and
 * inserting one element, `arrayMove` of the sortable drag-and-drop library,
 * `Array.prototype.filter` and `Array.prototype.findIndex`.
 */
module Sequences {

  /** `s` without its element at index `i`. */
  function Remove<T>(s: seq<T>, i: nat): (r: seq<T>)
    requires i < |s|
    ensures |r| == |s| - 1
  {
    s[..i] + s[i + 1..]
  }

  /** `s` with `x` inserted so that it ends up at index `i`. */
  function Insert<T>(s: seq<T>, i: nat, x: T): (r: seq<T>)
    requires i <= |s|
    ensures |r| == |s| + 1
  {
    s[..i] + [x] + s[i..]
  }

  lemma RemoveInsert<T>(s: seq<T>, i: nat, x: T)
    requires i <= |s|
    ensures Insert(s, i, x)[i] == x
    ensures Remove(Insert(s, i, x), i) == s
  {
    var t := Insert(s, i, x);
    assert t[..i] == s[..i];
    assert t[i + 1..] == s[i..];
  }

  lemma InsertRemove<T>(s: seq<T>, i: nat)
    requires i < |s|
    ensures Insert(Remove(s, i), i, s[i]) == s
  {
    assert Remove(s, i)[..i] == s[..i];
    assert Remove(s, i)[i..] == s[i + 1..];
  }

  lemma RemoveUpdate<T>(s: seq<T>, i: nat, x: T)
    requires i < |s|
    ensures Remove(s[i := x], i) == Remove(s, i)
  {
    assert s[i := x][..i] == s[..i];
    assert s[i := x][i + 1..] == s[i + 1..];
  }

  lemma MultisetRemove<T>(s: seq<T>, i: nat)
    requires i < |s|
    ensures multiset(s) == multiset(Remove(s, i)) + multiset{s[i]}
  {
    assert s == s[..i] + [s[i]] + s[i + 1..];
  }

  lemma MultisetInsert<T>(s: seq<T>, i: nat, x: T)
    requires i <= |s|
    ensures multiset(Insert(s, i, x)) == multiset(s) + multiset{x}
  {
    assert s == s[..i] + s[i..];
  }

  /**
   * `arrayMove(array, from, to)`: the element at `from` is taken out and put
   * back so that it sits at index `to`. The result is a permutation of `s`
   * with that element at `to`, and every other element keeps its relative
   * order: taking the moved element back out gives what taking it out of `s`
   * gives.
   */
  function ArrayMove<T>(s: seq<T>, from: nat, to: nat): (r: seq<T>)
    requires from < |s| && to < |s|
    ensures |r| == |s|
    ensures r[to] == s[from]
    ensures Remove(r, to) == Remove(s, from)
    ensures multiset(r) == multiset(s)
  {
    var rest := Remove(s, from);
    RemoveInsert(rest, to, s[from]);
    MultisetRemove(s, from);
    MultisetInsert(rest, to, s[from]);
    Insert(rest, to, s[from])
  }

  /** The three facts in ArrayMove's contract determine its result. */
  lemma {:induction false} ArrayMoveUnique<T>(s: seq<T>, from: nat, to: nat, r: seq<T>)
    requires from < |s| && to < |s|
    requires |r| == |s| && r[to] == s[from] && Remove(r, to) == Remove(s, from)
    ensures r == ArrayMove(s, from, to)
  {
    InsertRemove(r, to);
  }

  /** Moving an element onto its own index changes nothing. */
  lemma {:induction false} ArrayMoveIdentity<T>(s: seq<T>, i: nat)
    requires i < |s|
    ensures ArrayMove(s, i, i) == s
  {
    InsertRemove(s, i);
  }

  /** Moving the element back from `to` to `from` undoes the move. */
  lemma {:induction false} ArrayMoveInverse<T>(s: seq<T>, from: nat, to: nat)
    requires from < |s| && to < |s|
    ensures ArrayMove(ArrayMove(s, from, to), to, from) == s
  {
    InsertRemove(s, from);
  }

  /**
   * Where every element ends up: the elements between the two indices shift
   * by one towards `from`, the rest stay where they were.
   */
  lemma {:induction false} ArrayMoveAt<T>(s: seq<T>, from: nat, to: nat, k: nat)
    requires from < |s| && to < |s| && k < |s|
    ensures ArrayMove(s, from, to)[k] ==
      if k == to then s[from]
      else if from <= to && from <= k < to then s[k + 1]
      else if to < from && to < k <= from then s[k - 1]
      else s[k]
  {
    var rest := Remove(s, from);
    var r := ArrayMove(s, from, to);
    assert r == rest[..to] + [s[from]] + rest[to..];
    if k < to {
      assert r[k] == rest[k];
    } else if k > to {
      assert r[k] == rest[k - 1];
    }
  }

  /** `Array.prototype.map`: `f` applied to every element, in order. */
  function MapSeq<T, U>(f: T -> U, s: seq<T>): (r: seq<U>)
    ensures |r| == |s|
    ensures forall i :: 0 <= i < |s| ==> r[i] == f(s[i])
  {
    seq(|s|, i requires 0 <= i < |s| => f(s[i]))
  }

  /**
   * `s.map(e => matches(e) ? x : e)`: every element that matches is replaced
   * by `x`, every other element stays at its index.
   */
  function ReplaceWhere<T>(s: seq<T>, matches: T -> bool, x: T): (r: seq<T>)
    ensures |r| == |s|
    ensures forall i :: 0 <= i < |s| && !matches(s[i]) ==> r[i] == s[i]
    ensures forall i :: 0 <= i < |s| && matches(s[i]) ==> r[i] == x
  {
    MapSeq(e => if matches(e) then x else e, s)
  }

  /** Once the replacement itself matches, replacing again changes nothing. */
  lemma ReplaceWhereTwice<T>(s: seq<T>, matches: T -> bool, x: T)
    requires matches(x)
    ensures ReplaceWhere(ReplaceWhere(s, matches, x), matches, x) == ReplaceWhere(s, matches, x)
  {
    var r := ReplaceWhere(s, matches, x);
    assert forall i :: 0 <= i < |r| ==> ReplaceWhere(r, matches, x)[i] == r[i];
  }

  /** `Array.prototype.filter`: the elements of `s` that satisfy `f`, in order. */
  function Filter<T(!new)>(f: T -> bool, s: seq<T>): (r: seq<T>)
    ensures |r| <= |s|
    ensures forall i :: 0 <= i < |r| ==> f(r[i])
    ensures forall x :: multiset(r)[x] == if f(x) then multiset(s)[x] else 0
  {
    if s == [] then []
    else
      assert s == [s[0]] + s[1..];
      (if f(s[0]) then [s[0]] else []) + Filter(f, s[1..])
  }

  /** Filtering keeps order: it distributes over concatenation. */
  lemma {:induction false} FilterAppend<T(!new)>(f: T -> bool, a: seq<T>, b: seq<T>)
    ensures Filter(f, a + b) == Filter(f, a) + Filter(f, b)
  {
    if a == [] {
      assert a + b == b;
    } else {
      assert (a + b)[0] == a[0];
      assert (a + b)[1..] == a[1..] + b;
      FilterAppend(f, a[1..], b);
    }
  }

  /** A sequence whose every element passes the test is its own filter. */
  lemma {:induction false} FilterKeepsAll<T(!new)>(f: T -> bool, s: seq<T>)
    requires forall i :: 0 <= i < |s| ==> f(s[i])
    ensures Filter(f, s) == s
  {
    if s != [] {
      FilterKeepsAll(f, s[1..]);
    }
  }

  /** Filtering first by a weaker test and then by `g` is filtering by `g`. */
  lemma {:induction false} FilterFilter<T(!new)>(f: T -> bool, g: T -> bool, s: seq<T>)
    requires forall x :: g(x) ==> f(x)
    ensures Filter(g, Filter(f, s)) == Filter(g, s)
  {
    if s != [] {
      var rest := Filter(f, s[1..]);
      FilterFilter(f, g, s[1..]);
      if f(s[0]) {
        var kept := [s[0]] + rest;
        assert Filter(f, s) == kept;
        assert kept[0] == s[0] && kept[1..] == rest;
      } else {
        assert Filter(f, s) == rest;
        assert !g(s[0]);
      }
    }
  }

  /** How many elements pass the test after one element is replaced. */
  lemma {:induction false} FilterUpdateCount<T(!new)>(f: T -> bool, s: seq<T>, i: nat, x: T)
    requires i < |s|
    ensures |Filter(f, s[i := x])| ==
            |Filter(f, s)| - (if f(s[i]) then 1 else 0) + (if f(x) then 1 else 0)
  {
    assert s == s[..i] + [s[i]] + s[i + 1..];
    assert s[i := x] == s[..i] + [x] + s[i + 1..];
    FilterAppend(f, s[..i] + [s[i]], s[i + 1..]);
    FilterAppend(f, s[..i], [s[i]]);
    FilterAppend(f, s[..i] + [x], s[i + 1..]);
    FilterAppend(f, s[..i], [x]);
    assert [s[i]][1..] == [] && [x][1..] == [];
  }

  /**
   * `Array.prototype.findIndex` for equality with `x`: the first index that
   * holds `x`, or -1 when there is none.
   */
  function IndexOf<T(==)>(s: seq<T>, x: T): (r: int)
    ensures -1 <= r < |s|
    ensures r == -1 <==> x !in s
    ensures 0 <= r ==> s[r] == x && x !in s[..r]
  {
    if s == [] then -1
    else if s[0] == x then 0
    else
      var k := IndexOf(s[1..], x);
      assert s == [s[0]] + s[1..];
      if k == -1 then -1
      else
        assert s[..k + 1] == [s[0]] + s[1..][..k];
        k + 1
  }
}

=== FILE: Text.dfy ===
/**
 * Decimal rendering of a count, as a template literal such as
 * `New Column ${columns.length + 1}` renders it.
 */
module Text {

  predicate IsDigit(c: char) {
    '0' <= c <= '9'
  }

  predicate AllDigits(s: string) {
    forall i :: 0 <= i < |s| ==> IsDigit(s[i])
  }

  function DigitChar(d: nat): (c: char)
    requires d < 10
    ensures IsDigit(c)
  {
    ('0' as int + d) as char
  }

  function DigitValue(c: char): nat
    requires IsDigit(c)
  {
    c as int - '0' as int
  }

  /** The decimal digits of `n`, most significant first, without leading zeros. */
  function NatToString(n: nat): (s: string)
    ensures |s| >= 1 && AllDigits(s)
    ensures |s| > 1 ==> s[0] != '0'
  {
    if n < 10 then [DigitChar(n)] else NatToString(n / 10) + [DigitChar(n % 10)]
  }

  /** Reads a string of decimal digits back as a number. */
  function StringToNat(s: string): nat
    requires AllDigits(s)
  {
    if s == [] then 0 else 10 * StringToNat(s[..|s| - 1]) + DigitValue(s[|s| - 1])
  }

  /** The rendering loses nothing: reading it back gives the number. */
  lemma {:induction false} NatToStringRoundTrip(n: nat)
    ensures StringToNat(NatToString(n)) == n
  {
    var s := NatToString(n);
    if n < 10 {
      assert s[..|s| - 1] == [];
    } else {
      assert s[..|s| - 1] == NatToString(n / 10);
      NatToStringRoundTrip(n / 10);
    }
  }
}
